=== FILE: README.md ===
# Focus navigation in the rotation demo, modelled in Dafny

The model covers the control side of a keyboard/gamepad focus-navigation
layer, as one navigable text box (`EditTextExt`) implements it, and the two
small state machines around that box:

- **EditTextExt** (`edit_text_ext.dfy`). This is a text box that can hold
  navigation focus. It is navigable when it and every ancestor up to the UI
  root are enabled and visible. A directional press classified as `Input`
  is consumed, because it moves the caret; any other press is not. Setting
  `IsSelected` sets `IsSelectionActive` to the same value and raises
  `NavigatedOut` on every assignment of `false`. A commit raises
  `TextCommitted`. Releasing a touch on an active box sets the
  external-focus hint. Raised notifications are kept in an append-only log.
- **RotationControllerScript** (`rotation_controller.dfy`). This holds the
  rotation order and the matrix/quaternion flag. Optional arguments are
  merged into that state. The script composes the target rotation in the
  order's axis sequence and writes the current-order label. Up/Down nudges
  the angle in the first edit box (X, then Y, then Z) whose caret is active.
  The floating-point maths is replaced by symbolic products of elementary
  axis rotations. Text is read through an abstract parser
  (`string -> Option<int>`) and written through an abstract formatter
  (`int -> string`).
- **GameStartupScript** (`game_startup.dfy`). This registers the navigation
  processor at most once. It waits until the UI render feature is
  initialised. It then registers the renderer factory, enables the UI
  component and refreshes the navigation manager (`OnControlStatesUpdated`),
  and finally removes itself. The engine is reduced to counters and flags,
  and every engine call is appended to a call log.

Helper modules: `Options` (`options.dfy`, an optional value) and `Logs`
(`logs.dfy`, counting log entries).

The `IsSelected` setter is level-triggered. It computes the true→false
transition (`isNavigatedOut`, EditTextExt.cs:46) but never reads it, and it
raises `NavigatedOut` on every assignment of `false` (EditTextExt.cs:49-52).
The unused variable suggests an edge-triggered intent; the model follows the
code. `DeselectTwiceFiresTwice` states the level-triggered behaviour.
`DispatchCollapses` shows that repeated notifications with no edit in between
collapse into one re-application. `SpuriousNotificationsHarmless` and
`SingleNotificationEffect` show when a single false→false notification is
harmless and when it is not. It re-applies the rotation from the boxes'
current text. It leaves the controller unchanged exactly when there is no
target, or when target and label already show that re-application.

## Model

| member | source | states |
|---|---|---|
| EditTextExt.Create | StrideRotationTest.Game/UI/EditTextExt.cs:37-39 | a new box is selectable, not selected, not active, has no external-focus hint and has raised nothing |
| EditTextExt.CanNavigateToControl | StrideRotationTest.Game/UI/EditTextExt.cs:58-74 | the walk returns true iff the box and every ancestor up to the root are enabled and visible; an ineligible box gives false whatever its ancestors are; only a boolean comes back from an immutable value |
| EditTextExt.OperationsKeepNavigability | StrideRotationTest.Game/UI/EditTextExt.cs:58-74 | navigability depends only on the enabled/visible chain: selecting, committing and touching never change it |
| EditTextExt.OnNavigationMovement | StrideRotationTest.Game/UI/EditTextExt.cs:76-84 | a movement is consumed exactly when it is classified as `Input`, and not consumed exactly when it is `Navigation` |
| EditTextExt.SetIsSelected | StrideRotationTest.Game/UI/EditTextExt.cs:41-54 | after assigning `v`, both `IsSelected` and `IsSelectionActive` are `v`; the old log is a prefix of the new one; `false` appends one `NavigatedOut`, `true` appends nothing; no other field changes |
| EditTextExt.SetIsSelectedCounts | StrideRotationTest.Game/UI/EditTextExt.cs:46-52 | each assignment of `false` adds exactly one `NavigatedOut`; an assignment of `true` adds none; no `TextCommitted` is added |
| EditTextExt.DeselectTwiceFiresTwice | StrideRotationTest.Game/UI/EditTextExt.cs:46-52 | on an unselected box, two assignments of `false` are not transitions, yet they raise `NavigatedOut` twice (level triggering) |
| EditTextExt.OnNavigationCommitSelection | StrideRotationTest.Game/UI/EditTextExt.cs:86-89 | a commit appends `TextCommitted` and leaves the selection flags and every other field unchanged |
| EditTextExt.CommitCounts | StrideRotationTest.Game/UI/EditTextExt.cs:86-89 | a commit adds exactly one `TextCommitted` and no `NavigatedOut` |
| EditTextExt.OnTouchUp | StrideRotationTest.Game/UI/EditTextExt.cs:91-98 | after the touch-up the hint is set iff it was set before or the caret is active; nothing else changes |
| RotationControllerScript.Initial | StrideRotationTest.Game/RotationControllerScript.cs:23-24 | a new script has no order and uses matrices |
| RotationControllerScript.Ordinal | StrideRotationTest.Game/RotationControllerScript.cs:177-184 | the enum value is 0 exactly for `None`, so "greater than `None`" means an order has been chosen |
| RotationControllerScript.AxisSequence | StrideRotationTest.Game/RotationControllerScript.cs:70-88 | `None` gives the empty product (identity); every other order uses each axis exactly once |
| RotationControllerScript.AxisSequenceSpellsName | StrideRotationTest.Game/RotationControllerScript.cs:70-88 | each order composes its axes in the sequence its name spells (YXZ: Y, X, Z; ZXY: Z, X, Y; XYZ: X, Y, Z; ZYX: Z, Y, X) |
| RotationControllerScript.Factors | StrideRotationTest.Game/RotationControllerScript.cs:60-88 | the i-th factor rotates about the i-th axis of the order's sequence, by that axis's angle |
| RotationControllerScript.GetAngles | StrideRotationTest.Game/RotationControllerScript.cs:101-113 | each angle is the parsed text of its box, or 0 when the text does not parse |
| RotationControllerScript.ApplyRotation | StrideRotationTest.Game/RotationControllerScript.cs:50-99 | without a target nothing changes; with one, a supplied argument overwrites the order or flag and an omitted one keeps it; the target receives the product in the order's sequence and the label shows the new state; edit boxes are untouched |
| RotationControllerScript.ApplyRotationIdempotent | StrideRotationTest.Game/RotationControllerScript.cs:50-99 | applying the same arguments twice equals applying them once |
| RotationControllerScript.BranchesAgree | StrideRotationTest.Game/RotationControllerScript.cs:68-97 | the matrix and the quaternion branch compose the same factors, and order `None` gives the identity; the two switch products in the source list the same axes for every order, which the model reflects by one shared table (`AxisSequence`) |
| RotationControllerScript.ReadLabelOfLabel | StrideRotationTest.Game/RotationControllerScript.cs:98 | the label "Current Order: <order> (Matrix)" or "(Quaternion)" can be read back to exactly the order and flag it was written from |
| RotationControllerScript.LabelInjective | StrideRotationTest.Game/RotationControllerScript.cs:98 | two states with the same label text have the same order and the same flag |
| RotationControllerScript.Handle | StrideRotationTest.Game/RotationControllerScript.cs:33-45 | without a target no event changes anything; with one, an order button sets its order and keeps the flag, the matrix button sets the flag and the quaternion button clears it, both keeping the order; an edit-box notification keeps order and flag and only re-applies; the label reports the result and the boxes are untouched |
| RotationControllerScript.DispatchCollapses | StrideRotationTest.Game/RotationControllerScript.cs:33-38 | a non-empty burst of edit-box notifications with no edit in between leaves the controller exactly where one re-application does |
| RotationControllerScript.SpuriousNotificationsHarmless | StrideRotationTest.Game/RotationControllerScript.cs:33-38 | when the controller already shows what re-applying would produce, any burst of notifications leaves it unchanged |
| RotationControllerScript.SingleNotificationEffect | StrideRotationTest.Game/RotationControllerScript.cs:33-38 | a single notification leaves the controller unchanged iff there is no target or target and label already show what re-applying from the current text writes; otherwise it changes them |
| RotationControllerScript.Start | StrideRotationTest.Game/RotationControllerScript.cs:28-48 | with a target, `Start` selects YXZ, keeps the flag and composes Y, X, Z; without one it changes nothing |
| RotationControllerScript.StartFromInitial | StrideRotationTest.Game/RotationControllerScript.cs:23-47 | a new script with a target shows "Current Order: YXZ (Matrix)" after `Start` and rotates about Y, then X, then Z, through matrices |
| RotationControllerScript.TryGetActiveInput | StrideRotationTest.Game/RotationControllerScript.cs:135-161 | returns an axis whose caret is active and before which (in X, Y, Z order) no caret is active; returns nothing iff no caret is active |
| RotationControllerScript.UpdateValue | StrideRotationTest.Game/RotationControllerScript.cs:163-174 | unparsable text changes nothing; parsable text becomes the value plus the increment; only that box's text changes; order and flag are kept; the rotation is re-applied from the new text only when an order is chosen, and otherwise target and label are untouched; after a re-application the label shows the kept order and flag |
| RotationControllerScript.Update | StrideRotationTest.Game/RotationControllerScript.cs:115-133 | without a keyboard, or with no active caret, a frame changes nothing; a frame never changes the order, the flag, the selection flags or the boxes' notification logs |
| RotationControllerScript.Nudge | StrideRotationTest.Game/RotationControllerScript.cs:125-132 | a key that is not pressed, or a frame with no active caret, changes nothing; a pressed key moves the active box's value by the increment; order, flag, selection flags and logs are kept |
| RotationControllerScript.UpdateUp | StrideRotationTest.Game/RotationControllerScript.cs:125-128 | Up alone sets the active box to its value plus 10 |
| RotationControllerScript.UpdateDown | StrideRotationTest.Game/RotationControllerScript.cs:129-132 | Down alone sets the active box to its value minus 10 |
| RotationControllerScript.UpdateUpAndDown | StrideRotationTest.Game/RotationControllerScript.cs:125-132 | Up and Down in one frame both apply, one after the other, so with a faithful text round trip the value ends where it started |
| RotationControllerScript.UpdateUnparsable | StrideRotationTest.Game/RotationControllerScript.cs:163-174 | if the active box's text does not parse, a frame changes nothing at all, whatever keys are pressed |
| GameStartupScript.Start | StrideRotationTest.Game/GameStartupScript.cs:13-26 | with no processor present, adds one processor, registers one service and keeps the reference, all together; otherwise it logs the duplicate and changes nothing else |
| GameStartupScript.SecondStartRegistersNothing | StrideRotationTest.Game/GameStartupScript.cs:13-26 | starting from no processor, a second script instance adds no processor and no service registration beyond the first one's, and keeps no reference itself |
| GameStartupScript.Update | StrideRotationTest.Game/GameStartupScript.cs:28-50 | before initialisation it is a no-op; afterwards it appends the renderer registration, then (only with a UI component) enable and refresh, then removal; it detaches the script |
| GameStartupScript.Frame | StrideRotationTest.Game/GameStartupScript.cs:28-50 | a frame finishes an attached script exactly when the render feature is initialised, and otherwise calls nothing |
| GameStartupScript.RunFramesCalls | StrideRotationTest.Game/GameStartupScript.cs:33-49 | over any run of frames, an attached script finishes once, at the first initialised frame, and makes no other call |
| GameStartupScript.LifecycleCalls | StrideRotationTest.Game/GameStartupScript.cs:13-50 | a script's whole log is its registration (or duplicate report), then the finishing sequence once, if any frame was initialised |
| GameStartupScript.LifecycleRefreshesAtMostOnce | StrideRotationTest.Game/GameStartupScript.cs:40-49 | `OnControlStatesUpdated` is called exactly once when a UI component exists and initialisation happens, and never otherwise |
| GameStartupScript.LifeCallsOrdering | StrideRotationTest.Game/GameStartupScript.cs:15-49 | registration comes before the refresh; the renderer factory comes before enabling; enabling comes before the refresh; removal comes last |
| GameStartupScript.LifecycleOrdering | StrideRotationTest.Game/GameStartupScript.cs:15-49 | the same ordering holds for the calls of any run of a script |

## Left out

- The navigation manager (`UINavigationProcessor`, `IUINavigationManager`) is not part of this model. This covers candidate ranking, directional and commit dispatch, focus re-validation and the manager's use of the external-focus hint. Only the calls the startup script makes to it are modelled.
- Quaternion and matrix arithmetic, `Quaternion.RotationMatrix` and the degree→radian conversion are left out because they are floating-point library maths. A rotation is the symbolic, ordered list of its axis factors, with angles in whole degrees.
- `float.TryParse` and `ToString` are left out because they are float text formatting. They become the parser and formatter parameters. `UpdateUpAndDown` assumes they round-trip.
- RotationControllerScript.UpdateValue: the increment is added in unbounded integers. Single-precision rounding of `currentValue + incrementValue` is not modelled.
- Routed-event registration, bubbling to parents, handler lists, `UIElementKey` lookup and `GetUI` are left out because they are framework plumbing. Raised notifications are a per-box log. `Handle` and `Dispatch` stand for the handlers wired in `Start`.
- The base `EditText` behaviour is left out because it belongs to the UI library. This covers `base.OnTouchUp`, hit-testing, caret handling and what else sets `IsSelectionActive`. `IsSelectionActive` is a plain field that any state may hold.
- Engine I/O is left out: the `GraphicsCompositor` lookup, the renderer factory's internals, and entity and processor collections. These are counters, flags and log entries.
- GameStartupScript.Update: the `Debug.Assert` that the render feature exists, and the non-null `_uiNavProcessor` dereference, are preconditions (`UpdateReady`). They are preconditions rather than modelled error paths, since the source crashes there (null dereferences at GameStartupScript.cs:33 and :46).
- `Debug.Fail` is a log entry. After it, execution continues as in a release build.
- The engine's scheduling is reduced to `Frame`/`RunFrames`: `Start` runs once, then `Update` runs each frame while the script is attached.
- `RotationControllerScript.Start` assumes that the UI component and all named elements exist (its `Debug.Assert`).

=== FILE: edit_text_ext.dfy ===
/** The navigable text box: an edit box that takes part in directional focus
    navigation. It decides whether focus may move to it, swallows directional
    presses meant for its caret, and raises two bubbling notifications,
    `TextCommitted` and `NavigatedOut`, recorded here as an append-only log. */
module EditTextExt {
  import Logs

  /** The two flags of a UI element that navigation eligibility looks at. */
  datatype Element = Element(isEnabled: bool, isVisible: bool)

  /** The notifications the box raises, in the order it raises them. */
  datatype TextEvent = TextCommitted | NavigatedOut

  /** How the navigation manager classifies a directional press it hands to
      the focused control: a request to move focus elsewhere, or input meant
      for the control's own content. */
  datatype InputType = Navigation | Input

  /** One text box. `ancestors` is its parent chain, parent first and the UI
      root last; `events` is every notification raised so far. */
  datatype EditBox = EditBox(
    element: Element,
    ancestors: seq<Element>,
    isSelectable: bool,
    isSelected: bool,
    isSelectionActive: bool,
    hasFocusExternally: bool,
    text: string,
    events: seq<TextEvent>)

  /** A freshly loaded box: selectable by default, not selected, no caret,
      no external-focus hint, nothing raised yet. */
  function Create(element: Element, ancestors: seq<Element>, text: string): (b: EditBox)
    ensures b.isSelectable
    ensures !b.isSelected && !b.isSelectionActive && !b.hasFocusExternally
    ensures b.events == []
    ensures b.element == element && b.ancestors == ancestors && b.text == text
  {
    EditBox(element, ancestors, true, false, false, false, text, [])
  }

  /** An element that can be navigated through: enabled and visible. */
  predicate Eligible(e: Element) {
    e.isEnabled && e.isVisible
  }

  /** Reference definition of navigability: the box and every ancestor up to
      the root are eligible. */
  ghost predicate Navigable(b: EditBox) {
    && Eligible(b.element)
    && forall i :: 0 <= i < |b.ancestors| ==> Eligible(b.ancestors[i])
  }

  /** The ancestor walk: reject at once if the box itself is ineligible, then
      climb the parent links and reject at the first ineligible ancestor.
      The box is an immutable value and only a boolean comes back, so the
      query cannot alter any control state. */
  method CanNavigateToControl(b: EditBox) returns (r: bool)
    ensures r <==> Navigable(b)
    ensures !Eligible(b.element) ==> !r
    ensures r ==> forall i :: 0 <= i < |b.ancestors| ==> Eligible(b.ancestors[i])
  {
    if !b.element.isEnabled || !b.element.isVisible {
      return false;
    }
    var k := 0;
    while k < |b.ancestors|
      invariant 0 <= k <= |b.ancestors|
      invariant forall i :: 0 <= i < k ==> Eligible(b.ancestors[i])
    {
      var parent := b.ancestors[k];
      if !parent.isEnabled || !parent.isVisible {
        return false;
      }
      k := k + 1;
    }
    return true;
  }

  /** A directional press classified as `Input` is consumed (it moves the
      caret); one classified as `Navigation` is left to the manager. */
  function OnNavigationMovement(b: EditBox, inputType: InputType): (consumed: bool)
    ensures consumed <==> inputType == Input
    ensures !consumed <==> inputType == Navigation
  {
    inputType == Input
  }

  /** True-to-false transition: the condition the setter computes but does
      not act on. */
  predicate IsNavigatedOut(b: EditBox, value: bool) {
    !value && b.isSelected != value
  }

  /** The `IsSelected` setter. Both flags take the new value, and every
      assignment of `false` raises `NavigatedOut`, whether or not the box was
      selected before: the setter is level-triggered. It computes
      `IsNavigatedOut(b, value)` but never reads it, so that condition does
      not appear here. */
  function SetIsSelected(b: EditBox, value: bool): (r: EditBox)
    ensures r.isSelected == value && r.isSelectionActive == value
    ensures |r.events| == |b.events| + (if value then 0 else 1)
    ensures r.events[..|b.events|] == b.events
    ensures !value ==> r.events[|b.events|] == NavigatedOut
    ensures r.(isSelected := b.isSelected, isSelectionActive := b.isSelectionActive, events := b.events) == b
  {
    b.(isSelected := value,
       isSelectionActive := value,
       events := if !value then b.events + [NavigatedOut] else b.events)
  }

  /** Commit while focused raises `TextCommitted` and touches nothing else. */
  function OnNavigationCommitSelection(b: EditBox): (r: EditBox)
    ensures r.events == b.events + [TextCommitted]
    ensures r.isSelected == b.isSelected && r.isSelectionActive == b.isSelectionActive
    ensures r.(events := b.events) == b
  {
    b.(events := b.events + [TextCommitted])
  }

  /** Releasing a touch on a box whose caret is active records that the box
      got focus from the pointer rather than from navigation; otherwise the
      hint keeps its previous value. */
  function OnTouchUp(b: EditBox): (r: EditBox)
    ensures r.hasFocusExternally <==> b.hasFocusExternally || b.isSelectionActive
    ensures r.(hasFocusExternally := b.hasFocusExternally) == b
  {
    if b.isSelectionActive then b.(hasFocusExternally := true) else b
  }

  /** Each assignment of `false` adds exactly one `NavigatedOut` to the log
      and an assignment of `true` none; `TextCommitted` is never raised. */
  lemma SetIsSelectedCounts(b: EditBox, value: bool)
    ensures Logs.Count(SetIsSelected(b, value).events, NavigatedOut)
         == Logs.Count(b.events, NavigatedOut) + (if value then 0 else 1)
    ensures Logs.Count(SetIsSelected(b, value).events, TextCommitted)
         == Logs.Count(b.events, TextCommitted)
  {
  }

  /** Level triggering: on a box that is not selected, assigning `false`
      twice raises `NavigatedOut` twice although neither assignment is a
      true-to-false transition. */
  lemma DeselectTwiceFiresTwice(b: EditBox)
    requires !b.isSelected
    ensures !IsNavigatedOut(b, false)
    ensures !IsNavigatedOut(SetIsSelected(b, false), false)
    ensures Logs.Count(SetIsSelected(SetIsSelected(b, false), false).events, NavigatedOut)
         == Logs.Count(b.events, NavigatedOut) + 2
  {
  }

  /** Commit adds exactly one `TextCommitted` and no `NavigatedOut`. */
  lemma CommitCounts(b: EditBox)
    ensures Logs.Count(OnNavigationCommitSelection(b).events, TextCommitted)
         == Logs.Count(b.events, TextCommitted) + 1
    ensures Logs.Count(OnNavigationCommitSelection(b).events, NavigatedOut)
         == Logs.Count(b.events, NavigatedOut)
  {
  }

  /** None of the box's own operations changes its eligibility: the answer
      depends on the enabled and visible flags of the chain alone. */
  lemma OperationsKeepNavigability(b: EditBox, value: bool)
    ensures Navigable(SetIsSelected(b, value)) == Navigable(b)
    ensures Navigable(OnNavigationCommitSelection(b)) == Navigable(b)
    ensures Navigable(OnTouchUp(b)) == Navigable(b)
  {
  }
}

=== FILE: game_startup.dfy ===
/** The startup script: registers the navigation processor once, waits until
    the UI render feature is initialised, then enables the UI component,
    tells the navigation manager that the control states changed, and removes
    itself. The engine is reduced to counters and flags, and every engine
    call the script makes is appended to a call log. */
module GameStartupScript {
  import Logs

  /** Engine calls the script makes, in the order it makes them. */
  datatype Call =
    | AddProcessor            // the navigation processor joins the entity manager
    | AddService              // and is registered as the navigation-manager service
    | DebugFail               // registration found a processor already present
    | RegisterRendererFactory // custom UI renderers are hooked into the render feature
    | EnableUiComponent
    | ControlStatesUpdated    // the navigation manager re-validates its focus
    | RemoveScript

  /** The engine state the script sees, plus the script's own two facts:
      whether its processor reference is set and whether it is still attached
      to its entity. */
  datatype Startup = Startup(
    processorCount: nat,
    serviceCount: nat,
    renderFeaturePresent: bool,
    renderFeatureInitialized: bool,
    uiComponentPresent: bool,
    uiComponentEnabled: bool,
    navProcessorSet: bool,
    scriptAttached: bool,
    calls: seq<Call>)

  /** A script instance just attached to its entity: no processor reference. */
  function Attach(s: Startup): (r: Startup)
    ensures r.scriptAttached && !r.navProcessorSet
    ensures r.(scriptAttached := s.scriptAttached, navProcessorSet := s.navProcessorSet) == s
  {
    s.(scriptAttached := true, navProcessorSet := false)
  }

  /** Registration: only when no navigation processor exists yet does the
      script add one, register it as the service and keep a reference, all
      three together. Otherwise it reports the duplicate and adds nothing. */
  function Start(s: Startup): (r: Startup)
    ensures s.processorCount == 0 ==>
      && r.processorCount == 1 && r.serviceCount == s.serviceCount + 1
      && r.navProcessorSet
      && r.calls == s.calls + [AddProcessor, AddService]
    ensures s.processorCount > 0 ==>
      r == s.(calls := s.calls + [DebugFail])
    ensures r.processorCount - s.processorCount == r.serviceCount - s.serviceCount
    ensures r.processorCount <= s.processorCount + 1
    ensures r.uiComponentEnabled == s.uiComponentEnabled && r.scriptAttached == s.scriptAttached
    ensures r.(processorCount := s.processorCount, serviceCount := s.serviceCount,
               navProcessorSet := s.navProcessorSet, calls := s.calls) == s
  {
    if s.processorCount == 0 then
      s.(processorCount := 1, serviceCount := s.serviceCount + 1, navProcessorSet := true,
         calls := s.calls + [AddProcessor, AddService])
    else
      s.(calls := s.calls + [DebugFail])
  }

  /** What a successful `Update` appends to the call log. */
  function FinishCalls(uiComponentPresent: bool): seq<Call> {
    [RegisterRendererFactory]
      + (if uiComponentPresent then [EnableUiComponent, ControlStatesUpdated] else [])
      + [RemoveScript]
  }

  /** The facts `Update` relies on: the render feature exists, and the
      navigation-manager reference is set whenever it will be used. */
  predicate UpdateReady(s: Startup) {
    && s.renderFeaturePresent
    && (s.renderFeatureInitialized && s.uiComponentPresent ==> s.navProcessorSet)
  }

  /** One `Update`. Before the render feature is initialised it does
      nothing. Afterwards it registers the renderer factory, enables the UI
      component if there is one and then refreshes the navigation state, and
      finally removes the script. */
  function Update(s: Startup): (r: Startup)
    requires UpdateReady(s)
    ensures !s.renderFeatureInitialized ==> r == s
    ensures s.renderFeatureInitialized ==>
      && r.calls == s.calls + FinishCalls(s.uiComponentPresent)
      && !r.scriptAttached
      && r.uiComponentEnabled == (s.uiComponentEnabled || s.uiComponentPresent)
    ensures r.processorCount == s.processorCount && r.serviceCount == s.serviceCount
  {
    if !s.renderFeatureInitialized then s
    else
      var s1 := s.(calls := s.calls + [RegisterRendererFactory]);
      var s2 := if s1.uiComponentPresent
                then s1.(uiComponentEnabled := true,
                         calls := s1.calls + [EnableUiComponent, ControlStatesUpdated])
                else s1;
      s2.(scriptAttached := false, calls := s2.calls + [RemoveScript])
  }

  /** One frame: the render feature reports whether it is initialised by
      now, and the engine runs `Update` only while the script is attached. */
  function Frame(s: Startup, initialized: bool): (r: Startup)
    requires s.renderFeaturePresent
    requires initialized && s.scriptAttached && s.uiComponentPresent ==> s.navProcessorSet
    ensures r.renderFeaturePresent && r.renderFeatureInitialized == initialized
    ensures r.uiComponentPresent == s.uiComponentPresent && r.navProcessorSet == s.navProcessorSet
    ensures r.scriptAttached <==> s.scriptAttached && !initialized
    ensures s.scriptAttached && initialized ==> r.calls == s.calls + FinishCalls(s.uiComponentPresent)
    ensures !(s.scriptAttached && initialized) ==> r.calls == s.calls
  {
    var s1 := s.(renderFeatureInitialized := initialized);
    if s1.scriptAttached then Update(s1) else s1
  }

  /** The facts every frame of a run relies on. */
  predicate RunReady(s: Startup) {
    && s.renderFeaturePresent
    && (s.scriptAttached && s.uiComponentPresent ==> s.navProcessorSet)
  }

  /** A run of frames; `frames[i]` says whether the render feature is
      initialised in frame `i`. */
  function RunFrames(s: Startup, frames: seq<bool>): (r: Startup)
    requires RunReady(s)
    ensures RunReady(r)
    decreases |frames|
  {
    if frames == [] then s else RunFrames(Frame(s, frames[0]), frames[1..])
  }

  /** Over any run, an attached script finishes exactly once, in the first
      frame that finds the render feature initialised, and makes no call
      before or after that frame. */
  lemma {:induction false} RunFramesCalls(s: Startup, frames: seq<bool>)
    requires RunReady(s)
    ensures RunFrames(s, frames).calls
         == s.calls + (if s.scriptAttached && true in frames then FinishCalls(s.uiComponentPresent) else [])
    ensures RunFrames(s, frames).scriptAttached <==> s.scriptAttached && true !in frames
    decreases |frames|
  {
    if frames != [] {
      assert true in frames <==> frames[0] || true in frames[1..] by {
        assert frames == [frames[0]] + frames[1..];
      }
      var s1 := Frame(s, frames[0]);
      RunFramesCalls(s1, frames[1..]);
    }
  }

  /** Startup of one script instance over a run of frames. */
  function Lifecycle(s: Startup, frames: seq<bool>): (r: Startup)
    requires s.renderFeaturePresent
    requires s.processorCount == 0 || !s.uiComponentPresent
  {
    RunFrames(Start(Attach(s)), frames)
  }

  /** An entry `a` occurs before every occurrence of `b`. */
  ghost predicate Before(log: seq<Call>, a: Call, b: Call) {
    forall j :: 0 <= j < |log| && log[j] == b ==> exists i :: 0 <= i < j && log[i] == a
  }

  /** What `Start` appends to the call log. */
  function StartCalls(processorPresent: bool): seq<Call> {
    if processorPresent then [DebugFail] else [AddProcessor, AddService]
  }

  /** The calls one script makes over its whole life: the registration (or
      the duplicate report), then the finishing sequence once, as soon as a
      frame finds the render feature initialised. */
  lemma LifecycleCalls(s: Startup, frames: seq<bool>)
    requires s.renderFeaturePresent
    requires s.processorCount == 0 || !s.uiComponentPresent
    ensures Lifecycle(s, frames).calls
         == s.calls + StartCalls(s.processorCount > 0)
              + (if true in frames then FinishCalls(s.uiComponentPresent) else [])
    ensures !Lifecycle(s, frames).scriptAttached <==> true in frames
  {
    RunFramesCalls(Start(Attach(s)), frames);
  }

  /** The navigation manager is refreshed at most once per script: exactly
      once when a UI component exists and some frame finds the render
      feature initialised, and never otherwise. */
  lemma LifecycleRefreshesAtMostOnce(s: Startup, frames: seq<bool>)
    requires s.renderFeaturePresent
    requires s.processorCount == 0 || !s.uiComponentPresent
    ensures Logs.Count(Lifecycle(s, frames).calls, ControlStatesUpdated)
         == Logs.Count(s.calls, ControlStatesUpdated)
              + (if s.uiComponentPresent && true in frames then 1 else 0)
  {
    LifecycleCalls(s, frames);
    var st := StartCalls(s.processorCount > 0);
    var fin := if true in frames then FinishCalls(s.uiComponentPresent) else [];
    Logs.CountAppend(s.calls + st, fin, ControlStatesUpdated);
    Logs.CountAppend(s.calls, st, ControlStatesUpdated);
    assert ControlStatesUpdated !in st;
    if true in frames {
      var mid := if s.uiComponentPresent then [EnableUiComponent, ControlStatesUpdated] else [];
      Logs.CountAppend([RegisterRendererFactory] + mid, [RemoveScript], ControlStatesUpdated);
      Logs.CountAppend([RegisterRendererFactory], mid, ControlStatesUpdated);
      if s.uiComponentPresent {
        Logs.CountSnoc([EnableUiComponent], ControlStatesUpdated, ControlStatesUpdated);
      }
    }
  }

  /** `Before` holds when some `a` sits ahead of every `b`. */
  lemma BeforeByIndex(log: seq<Call>, a: Call, b: Call, i: nat)
    requires i < |log| && log[i] == a
    requires forall j :: 0 <= j < |log| && log[j] == b ==> i < j
    ensures Before(log, a, b)
  {
  }

  /** The calls a script appends over its life, by whether a processor was
      already present, whether a UI component exists and whether the script
      has finished. */
  function LifeCalls(processorPresent: bool, uiComponentPresent: bool, finished: bool): seq<Call> {
    StartCalls(processorPresent) + (if finished then FinishCalls(uiComponentPresent) else [])
  }

  lemma LifeCallsOrdering(processorPresent: bool, uiComponentPresent: bool, finished: bool)
    requires !processorPresent || !uiComponentPresent
    ensures var t := LifeCalls(processorPresent, uiComponentPresent, finished);
      && Before(t, AddService, ControlStatesUpdated)
      && Before(t, EnableUiComponent, ControlStatesUpdated)
      && Before(t, RegisterRendererFactory, EnableUiComponent)
      && (finished ==> t[|t| - 1] == RemoveScript)
  {
    var t := LifeCalls(processorPresent, uiComponentPresent, finished);
    if processorPresent {
      assert t == [DebugFail] + (if finished then [RegisterRendererFactory, RemoveScript] else []);
    } else if !finished {
      assert t == [AddProcessor, AddService];
    } else if uiComponentPresent {
      assert t == [AddProcessor, AddService, RegisterRendererFactory,
                   EnableUiComponent, ControlStatesUpdated, RemoveScript];
      BeforeByIndex(t, AddService, ControlStatesUpdated, 1);
      BeforeByIndex(t, EnableUiComponent, ControlStatesUpdated, 3);
      BeforeByIndex(t, RegisterRendererFactory, EnableUiComponent, 2);
    } else {
      assert t == [AddProcessor, AddService, RegisterRendererFactory, RemoveScript];
    }
  }

  /** The order of a script's calls: registration before the refresh, the
      renderer factory before the UI component is enabled, the component
      enabled before the refresh, and removal last. */
  lemma LifecycleOrdering(s: Startup, frames: seq<bool>)
    requires s.renderFeaturePresent
    requires s.processorCount == 0 || !s.uiComponentPresent
    ensures |Lifecycle(s, frames).calls| > |s.calls|
    ensures var tail := Lifecycle(s, frames).calls[|s.calls|..];
      && Before(tail, AddService, ControlStatesUpdated)
      && Before(tail, EnableUiComponent, ControlStatesUpdated)
      && Before(tail, RegisterRendererFactory, EnableUiComponent)
      && (true in frames ==> tail[|tail| - 1] == RemoveScript)
  {
    LifecycleCalls(s, frames);
    var tail := Lifecycle(s, frames).calls[|s.calls|..];
    assert tail == LifeCalls(s.processorCount > 0, s.uiComponentPresent, true in frames);
    LifeCallsOrdering(s.processorCount > 0, s.uiComponentPresent, true in frames);
  }

  /** A second script instance finds the processor already there: it adds
      no processor and no service registration of its own, and keeps no
      reference. */
  lemma SecondStartRegistersNothing(s: Startup)
    requires s.processorCount == 0
    ensures var s2 := Start(Attach(Start(Attach(s))));
      && s2.processorCount == 1
      && s2.serviceCount == s.serviceCount + 1
      && s2.processorCount == Start(Attach(s)).processorCount
      && s2.serviceCount == Start(Attach(s)).serviceCount
      && !s2.navProcessorSet
      && s2.calls == s.calls + [AddProcessor, AddService, DebugFail]
  {
  }
}

=== FILE: logs.dfy ===
/** Append-only logs of raised events and performed calls, and how to count
    the entries of one kind in them. */
module Logs {

  /** Number of entries of `log` equal to `x`. */
  function Count<T(==)>(log: seq<T>, x: T): (n: nat)
    ensures n <= |log|
    ensures n == 0 <==> x !in log
  {
    if log == [] then 0
    else (if log[|log| - 1] == x then 1 else 0) + Count(log[..|log| - 1], x)
  }

  /** Counting distributes over appending one log to another. */
  lemma {:induction false} CountAppend<T>(a: seq<T>, b: seq<T>, x: T)
    ensures Count(a + b, x) == Count(a, x) + Count(b, x)
    decreases |b|
  {
    if b == [] {
      assert a + b == a;
    } else {
      var b' := b[..|b| - 1];
      assert (a + b)[..|a + b| - 1] == a + b';
      CountAppend(a, b', x);
    }
  }

  /** Appending one entry adds one to its own count and nothing to any other. */
  lemma CountSnoc<T>(a: seq<T>, e: T, x: T)
    ensures Count(a + [e], x) == Count(a, x) + (if e == x then 1 else 0)
  {
    assert (a + [e])[..|a + [e]| - 1] == a;
  }
}

=== FILE: options.dfy ===
/** An optional value: the model's stand-in for a nullable reference, an
    omitted optional argument, or a parse that may fail. */
module Options {

  datatype Option<+T> = None | Some(value: T) {

    /** The wrapped value, or `default` when there is none (C#'s `??`). */
    function GetOr(default: T): (r: T)
      ensures Some? ==> r == value
      ensures None? ==> r == default
    {
      match this
      case Some(v) => v
      case None => default
    }
  }
}

=== FILE: rotation_controller.dfy ===
/** The controller of the rotation demo with the floating-point maths taken
    out: it keeps a rotation order and a matrix/quaternion flag, composes the
    target's rotation from three per-axis angles in the order's axis sequence,
    reports the state in a label, and lets the Up/Down keys nudge the angle of
    the edit box whose caret is active. Rotations are symbolic products of
    elementary axis rotations, and the text of an edit box is read through an
    abstract parser and written through an abstract formatter. */
module RotationControllerScript {
  import O = Options
  import E = EditTextExt

  /** The order in which the elementary rotations are composed; `None` is
      the state before any order has been chosen. */
  datatype RotationOrder = None | YXZ | ZXY | XYZ | ZYX

  datatype Axis = X | Y | Z

  /** One elementary rotation about a coordinate axis, in degrees. */
  datatype AxisRotation = AxisRotation(axis: Axis, degrees: int)

  /** The rotation written to the target: the ordered product of its
      factors (the empty product is the identity), and whether it was built
      through matrices or directly through quaternions. */
  datatype Rotation = Rotation(factors: seq<AxisRotation>, viaMatrix: bool)

  /** The three angles read from the edit boxes, in degrees. */
  datatype Angles = Angles(x: int, y: int, z: int)

  /** Reads a number from edit-box text; `None` when the text is not one. */
  type Parser = string -> O.Option<int>

  /** Writes a number as edit-box text. */
  type Formatter = int -> string

  /** The script's state. `target` is `None` when no rotation target is
      assigned and otherwise holds the target's current rotation; `orderLabel` is
      the text of the current-order label. */
  datatype Controller = Controller(
    order: RotationOrder,
    useMatrix: bool,
    target: O.Option<Rotation>,
    orderLabel: string,
    xEdit: E.EditBox,
    yEdit: E.EditBox,
    zEdit: E.EditBox)

  /** A freshly created script: no order yet, matrices by default. */
  function Initial(target: O.Option<Rotation>, orderLabel: string,
                   xEdit: E.EditBox, yEdit: E.EditBox, zEdit: E.EditBox): (c: Controller)
    ensures c.order == None && c.useMatrix
    ensures c.target == target && c.orderLabel == orderLabel
    ensures c.xEdit == xEdit && c.yEdit == yEdit && c.zEdit == zEdit
  {
    Controller(None, true, target, orderLabel, xEdit, yEdit, zEdit)
  }

  // ---------------------------------------------------------------------
  // Orders, axes and names

  /** The enum's underlying value, used for the `> None` comparison. */
  function Ordinal(o: RotationOrder): (n: nat)
    ensures n <= 4
    ensures n == 0 <==> o == None
  {
    match o
    case None => 0
    case YXZ => 1
    case ZXY => 2
    case XYZ => 3
    case ZYX => 4
  }

  /** The enum's name as it prints in the label. */
  function OrderName(o: RotationOrder): string {
    match o
    case None => "None"
    case YXZ => "YXZ"
    case ZXY => "ZXY"
    case XYZ => "XYZ"
    case ZYX => "ZYX"
  }

  function AxisName(a: Axis): string {
    match a
    case X => "X"
    case Y => "Y"
    case Z => "Z"
  }

  /** The axis names of a sequence of axes, written one after another. */
  function Spell(axes: seq<Axis>): string {
    if axes == [] then "" else AxisName(axes[0]) + Spell(axes[1..])
  }

  /** The composition table shared by the quaternion and the matrix branch:
      the axes whose rotations are multiplied, left to right. */
  function AxisSequence(o: RotationOrder): (axes: seq<Axis>)
    ensures axes == [] <==> o == None
    ensures o != None ==> |axes| == 3 && multiset(axes) == multiset{X, Y, Z}
  {
    match o
    case None => []
    case YXZ => [Y, X, Z]
    case ZXY => [Z, X, Y]
    case XYZ => [X, Y, Z]
    case ZYX => [Z, Y, X]
  }

  /** Three axes spell as the three letters of their names. */
  lemma SpellThree(a: Axis, b: Axis, c: Axis)
    ensures Spell([a, b, c]) == [AxisName(a)[0], AxisName(b)[0], AxisName(c)[0]]
  {
    assert [c][1..] == [];
    assert Spell([c]) == AxisName(c) + "" == [AxisName(c)[0]];
    assert [b, c][1..] == [c];
    assert Spell([b, c]) == AxisName(b) + [AxisName(c)[0]] == [AxisName(b)[0], AxisName(c)[0]];
    assert [a, b, c][1..] == [b, c];
  }

  /** The composition table agrees with the order's name: the axes are
      multiplied in the sequence the name spells. */
  lemma AxisSequenceSpellsName(o: RotationOrder)
    requires o != None
    ensures Spell(AxisSequence(o)) == OrderName(o)
  {
    var axes := AxisSequence(o);
    assert axes == [axes[0], axes[1], axes[2]];
    SpellThree(axes[0], axes[1], axes[2]);
  }

  function AngleOf(angles: Angles, a: Axis): int {
    match a
    case X => angles.x
    case Y => angles.y
    case Z => angles.z
  }

  /** The factors of the product for order `o`: one elementary rotation per
      axis of the order's sequence, each by that axis's angle. */
  function Factors(o: RotationOrder, angles: Angles): (fs: seq<AxisRotation>)
    ensures |fs| == |AxisSequence(o)|
    ensures forall i :: 0 <= i < |fs| ==>
      fs[i] == AxisRotation(AxisSequence(o)[i], AngleOf(angles, AxisSequence(o)[i]))
  {
    var axes := AxisSequence(o);
    seq(|axes|, i requires 0 <= i < |axes| => AxisRotation(axes[i], AngleOf(angles, axes[i])))
  }

  // ---------------------------------------------------------------------
  // The label

  const LabelPrefix: string := "Current Order: "

  function FlagText(useMatrix: bool): string {
    if useMatrix then "(Matrix)" else "(Quaternion)"
  }

  /** The text of the current-order label. */
  function Label(o: RotationOrder, useMatrix: bool): string {
    LabelPrefix + OrderName(o) + " " + FlagText(useMatrix)
  }

  /** The order whose name is `name`, if any. */
  function OrderFromName(name: string): (r: O.Option<RotationOrder>)
    ensures r.Some? ==> OrderName(r.value) == name
  {
    if name == "None" then O.Some(None)
    else if name == "YXZ" then O.Some(YXZ)
    else if name == "ZXY" then O.Some(ZXY)
    else if name == "XYZ" then O.Some(XYZ)
    else if name == "ZYX" then O.Some(ZYX)
    else O.None
  }

  /** Reads the order and the flag back from a label's text. */
  function ReadLabel(s: string): O.Option<(RotationOrder, bool)> {
    if |s| < |LabelPrefix| + 1 + |FlagText(true)| || s[..|LabelPrefix|] != LabelPrefix then O.None
    else
      var useMatrix := s[|s| - 2] == 'x';
      var tail := " " + FlagText(useMatrix);
      if |s| < |LabelPrefix| + |tail| || s[|s| - |tail|..] != tail then O.None
      else
        match OrderFromName(s[|LabelPrefix|..|s| - |tail|])
        case Some(o) => O.Some((o, useMatrix))
        case None => O.None
  }

  /** The label states the order and the flag unambiguously: reading it back
      yields exactly the state it was written from. */
  lemma ReadLabelOfLabel(o: RotationOrder, useMatrix: bool)
    ensures ReadLabel(Label(o, useMatrix)) == O.Some((o, useMatrix))
  {
    var name := OrderName(o);
    var tail := " " + FlagText(useMatrix);
    var s := Label(o, useMatrix);
    assert s == LabelPrefix + name + tail;
    assert s[..|LabelPrefix|] == LabelPrefix;
    assert s[|s| - |tail|..] == tail;
    assert s[|s| - 2] == tail[|tail| - 2];
    assert s[|LabelPrefix|..|s| - |tail|] == name;
  }

  /** Two states with the same label are the same state. */
  lemma LabelInjective(o1: RotationOrder, m1: bool, o2: RotationOrder, m2: bool)
    requires Label(o1, m1) == Label(o2, m2)
    ensures o1 == o2 && m1 == m2
  {
    ReadLabelOfLabel(o1, m1);
    ReadLabelOfLabel(o2, m2);
  }

  // ---------------------------------------------------------------------
  // Edit boxes

  function Edit(c: Controller, a: Axis): E.EditBox {
    match a
    case X => c.xEdit
    case Y => c.yEdit
    case Z => c.zEdit
  }

  function WithEdit(c: Controller, a: Axis, b: E.EditBox): (r: Controller)
    ensures Edit(r, a) == b
    ensures forall a' :: a' != a ==> Edit(r, a') == Edit(c, a')
    ensures r.order == c.order && r.useMatrix == c.useMatrix
    ensures r.target == c.target && r.orderLabel == c.orderLabel
  {
    match a
    case X => c.(xEdit := b)
    case Y => c.(yEdit := b)
    case Z => c.(zEdit := b)
  }

  /** The angles in the edit boxes; text that does not parse counts as 0. */
  function GetAngles(c: Controller, parse: Parser): (angles: Angles)
    ensures forall a :: parse(Edit(c, a).text).Some? ==>
      AngleOf(angles, a) == parse(Edit(c, a).text).value
    ensures forall a :: parse(Edit(c, a).text).None? ==> AngleOf(angles, a) == 0
  {
    Angles(parse(c.xEdit.text).GetOr(0), parse(c.yEdit.text).GetOr(0), parse(c.zEdit.text).GetOr(0))
  }

  // ---------------------------------------------------------------------
  // Applying a rotation

  /** Merges the optional arguments into the stored order and flag, writes
      the composed rotation to the target and refreshes the label. Without a
      target nothing happens at all. */
  function ApplyRotation(c: Controller, order: O.Option<RotationOrder>,
                         useMatrix: O.Option<bool>, parse: Parser): (r: Controller)
    ensures c.target.None? ==> r == c
    ensures c.target.Some? ==>
      && (order.Some? ==> r.order == order.value)
      && (order.None? ==> r.order == c.order)
      && (useMatrix.Some? ==> r.useMatrix == useMatrix.value)
      && (useMatrix.None? ==> r.useMatrix == c.useMatrix)
      && r.target == O.Some(Rotation(Factors(r.order, GetAngles(c, parse)), r.useMatrix))
      && r.orderLabel == Label(r.order, r.useMatrix)
    ensures forall a :: Edit(r, a) == Edit(c, a)
  {
    if c.target.None? then c
    else
      var o := order.GetOr(c.order);
      var m := useMatrix.GetOr(c.useMatrix);
      var angles := GetAngles(c, parse);
      c.(order := o, useMatrix := m,
         target := O.Some(Rotation(Factors(o, angles), m)),
         orderLabel := Label(o, m))
  }

  /** Applying the same arguments twice is the same as applying them once;
      in particular a repeated notification re-applies nothing new. */
  lemma ApplyRotationIdempotent(c: Controller, order: O.Option<RotationOrder>,
                                useMatrix: O.Option<bool>, parse: Parser)
    ensures ApplyRotation(ApplyRotation(c, order, useMatrix, parse), order, useMatrix, parse)
         == ApplyRotation(c, order, useMatrix, parse)
  {
  }

  /** With no order chosen the target receives the identity, whichever
      branch builds it; with an order, the matrix and quaternion branches
      compose the same factors. */
  lemma BranchesAgree(c: Controller, order: O.Option<RotationOrder>, parse: Parser)
    requires c.target.Some?
    ensures ApplyRotation(c, order, O.Some(true), parse).target.value.factors
         == ApplyRotation(c, order, O.Some(false), parse).target.value.factors
    ensures order == O.Some(None) ==> ApplyRotation(c, order, O.None, parse).target.value.factors == []
  {
  }

  // ---------------------------------------------------------------------
  // Start and the event wiring

  /** Wiring done in `Start`: each edit box re-applies on commit and on
      navigating out, each order button selects its order, and the two
      representation buttons select the flag. */
  datatype UiEvent =
    | EditRaised(axis: Axis, ev: E.TextEvent)
    | OrderClicked(order: RotationOrder)
    | UseMatrixClicked
    | UseQuaternionClicked

  function Handle(c: Controller, ev: UiEvent, parse: Parser): (r: Controller)
    ensures ev.EditRaised? ==> r == ApplyRotation(c, O.None, O.None, parse)
    ensures ev.OrderClicked? ==> r == ApplyRotation(c, O.Some(ev.order), O.None, parse)
    ensures ev.UseMatrixClicked? ==> r == ApplyRotation(c, O.None, O.Some(true), parse)
    ensures ev.UseQuaternionClicked? ==> r == ApplyRotation(c, O.None, O.Some(false), parse)
    ensures c.target.None? ==> r == c
    ensures c.target.Some? && ev.OrderClicked? ==> r.order == ev.order && r.useMatrix == c.useMatrix
    ensures c.target.Some? && ev.UseMatrixClicked? ==> r.useMatrix && r.order == c.order
    ensures c.target.Some? && ev.UseQuaternionClicked? ==> !r.useMatrix && r.order == c.order
    ensures ev.EditRaised? ==> r.order == c.order && r.useMatrix == c.useMatrix
    ensures c.target.Some? ==> r.orderLabel == Label(r.order, r.useMatrix)
    ensures forall a :: Edit(r, a) == Edit(c, a)
  {
    match ev
    case EditRaised(_, _) => ApplyRotation(c, O.None, O.None, parse)
    case OrderClicked(o) => ApplyRotation(c, O.Some(o), O.None, parse)
    case UseMatrixClicked => ApplyRotation(c, O.None, O.Some(true), parse)
    case UseQuaternionClicked => ApplyRotation(c, O.None, O.Some(false), parse)
  }

  /** Delivers a box's newly raised notifications to the handlers, in order. */
  function Dispatch(c: Controller, a: Axis, evs: seq<E.TextEvent>, parse: Parser): Controller
    decreases |evs|
  {
    if evs == [] then c else Dispatch(Handle(c, EditRaised(a, evs[0]), parse), a, evs[1..], parse)
  }

  /** A burst of notifications with no edit in between ends where a single
      re-application leaves it: repeated notifications collapse into one.
      One notification against none is a different matter, since it
      re-applies the rotation from the boxes' current text. */
  lemma {:induction false} DispatchCollapses(c: Controller, a: Axis, evs: seq<E.TextEvent>, parse: Parser)
    requires evs != []
    ensures Dispatch(c, a, evs, parse) == ApplyRotation(c, O.None, O.None, parse)
    decreases |evs|
  {
    var c1 := Handle(c, EditRaised(a, evs[0]), parse);
    if evs[1..] != [] {
      DispatchCollapses(c1, a, evs[1..], parse);
      ApplyRotationIdempotent(c, O.None, O.None, parse);
    }
  }

  /** A notification is harmless exactly when the controller already shows
      what a re-application would produce; then any burst leaves it as it
      was. */
  lemma SpuriousNotificationsHarmless(c: Controller, a: Axis, evs: seq<E.TextEvent>, parse: Parser)
    requires c == ApplyRotation(c, O.None, O.None, parse)
    requires evs != []
    ensures Dispatch(c, a, evs, parse) == c
  {
    DispatchCollapses(c, a, evs, parse);
  }

  /** A single notification leaves the controller as it was exactly when
      there is no target, or when target and label already show what a
      re-application from the current text would write; otherwise it changes
      them. */
  lemma SingleNotificationEffect(c: Controller, a: Axis, ev: E.TextEvent, parse: Parser)
    ensures Dispatch(c, a, [ev], parse) == c
        <==> c.target.None?
             || (&& c.target.value == Rotation(Factors(c.order, GetAngles(c, parse)), c.useMatrix)
                 && c.orderLabel == Label(c.order, c.useMatrix))
  {
    assert [ev][1..] == [];
  }

  /** `Start` requests the YXZ order and keeps the flag. */
  function Start(c: Controller, parse: Parser): (r: Controller)
    ensures c.target.None? ==> r == c
    ensures c.target.Some? ==> r.order == YXZ && r.useMatrix == c.useMatrix
    ensures c.target.Some? ==> r.target.Some? && r.target.value.factors == Factors(YXZ, GetAngles(c, parse))
  {
    ApplyRotation(c, O.Some(YXZ), O.None, parse)
  }

  /** A fresh script with a target shows "Current Order: YXZ (Matrix)" after
      `Start` and rotates Y, then X, then Z. */
  lemma StartFromInitial(target: Rotation, orderLabel: string,
                         xEdit: E.EditBox, yEdit: E.EditBox, zEdit: E.EditBox, parse: Parser)
    ensures var r := Start(Initial(O.Some(target), orderLabel, xEdit, yEdit, zEdit), parse);
      && r.orderLabel == "Current Order: YXZ (Matrix)"
      && |r.target.value.factors| == 3
      && r.target.value.factors[0].axis == Y
      && r.target.value.factors[1].axis == X
      && r.target.value.factors[2].axis == Z
      && r.target.value.viaMatrix
  {
  }

  // ---------------------------------------------------------------------
  // Update: keyboard nudges

  /** The keyboard as one frame sees it. */
  datatype Keyboard = Keyboard(hasKeyboard: bool, upPressed: bool, downPressed: bool)

  const ValueIncrement: int := 10

  function Priority(a: Axis): nat {
    match a
    case X => 0
    case Y => 1
    case Z => 2
  }

  /** The first of X, Y, Z whose caret is active, or nothing. */
  function TryGetActiveInput(c: Controller): (r: O.Option<Axis>)
    ensures r.Some? ==> Edit(c, r.value).isSelectionActive
    ensures r.Some? ==> forall a :: Priority(a) < Priority(r.value) ==> !Edit(c, a).isSelectionActive
    ensures r.None? <==> forall a :: !Edit(c, a).isSelectionActive
  {
    if c.xEdit.isSelectionActive then O.Some(X)
    else if c.yEdit.isSelectionActive then O.Some(Y)
    else if c.zEdit.isSelectionActive then O.Some(Z)
    else O.None
  }

  /** Adds `increment` to the number in the box for axis `a` when its text
      parses, and then re-applies the rotation if an order has been chosen.
      Text that does not parse leaves everything as it was. */
  function UpdateValue(c: Controller, a: Axis, increment: int,
                       parse: Parser, show: Formatter): (r: Controller)
    ensures parse(Edit(c, a).text).None? ==> r == c
    ensures parse(Edit(c, a).text).Some? ==>
      Edit(r, a).text == show(parse(Edit(c, a).text).value + increment)
    ensures Edit(r, a) == Edit(c, a).(text := Edit(r, a).text)
    ensures forall a' :: a' != a ==> Edit(r, a') == Edit(c, a')
    ensures r.order == c.order && r.useMatrix == c.useMatrix
    ensures c.order == None ==> r.target == c.target && r.orderLabel == c.orderLabel
    ensures c.order != None && c.target.Some? && parse(Edit(c, a).text).Some? ==>
      r.target == O.Some(Rotation(Factors(c.order, GetAngles(r, parse)), c.useMatrix))
    ensures c.order != None && c.target.Some? && parse(Edit(c, a).text).Some? ==>
      r.orderLabel == Label(c.order, c.useMatrix)
    ensures c.target.None? ==> r.target == c.target && r.orderLabel == c.orderLabel
  {
    match parse(Edit(c, a).text)
    case None => c
    case Some(current) =>
      var box := Edit(c, a).(text := show(current + increment));
      var c1 := WithEdit(c, a, box);
      if Ordinal(c1.order) > Ordinal(None) then ApplyRotation(c1, O.Some(c1.order), O.None, parse)
      else c1
  }

  /** One key's effect: when it is pressed and some caret is active, the
      active box's number moves by `increment`. */
  function Nudge(c: Controller, pressed: bool, increment: int,
                 parse: Parser, show: Formatter): (r: Controller)
    ensures !pressed || TryGetActiveInput(c).None? ==> r == c
    ensures pressed && TryGetActiveInput(c).Some? ==>
      r == UpdateValue(c, TryGetActiveInput(c).value, increment, parse, show)
    ensures r.order == c.order && r.useMatrix == c.useMatrix
    ensures forall a :: Edit(r, a).isSelectionActive == Edit(c, a).isSelectionActive
    ensures forall a :: Edit(r, a).events == Edit(c, a).events
  {
    if pressed && TryGetActiveInput(c).Some?
    then UpdateValue(c, TryGetActiveInput(c).value, increment, parse, show)
    else c
  }

  /** One frame: Up adds the increment and Down subtracts it, each on its own
      and both in the same frame when both are pressed. */
  function Update(c: Controller, kb: Keyboard, parse: Parser, show: Formatter): (r: Controller)
    ensures !kb.hasKeyboard ==> r == c
    ensures TryGetActiveInput(c).None? ==> r == c
    ensures r.order == c.order && r.useMatrix == c.useMatrix
    ensures forall a :: Edit(r, a).isSelectionActive == Edit(c, a).isSelectionActive
    ensures forall a :: Edit(r, a).events == Edit(c, a).events
  {
    if !kb.hasKeyboard then c
    else
      var c1 := Nudge(c, kb.upPressed, ValueIncrement, parse, show);
      assert TryGetActiveInput(c1) == TryGetActiveInput(c);
      Nudge(c1, kb.downPressed, -ValueIncrement, parse, show)
  }

  /** Formatting then parsing gives the number back. */
  ghost predicate RoundTrips(parse: Parser, show: Formatter) {
    forall n :: parse(show(n)) == O.Some(n)
  }

  /** Up alone raises the active box's number by 10. */
  lemma UpdateUp(c: Controller, parse: Parser, show: Formatter, a: Axis, v: int)
    requires TryGetActiveInput(c) == O.Some(a)
    requires parse(Edit(c, a).text) == O.Some(v)
    ensures Edit(Update(c, Keyboard(true, true, false), parse, show), a).text == show(v + 10)
  {
  }

  /** Down alone lowers the active box's number by 10. */
  lemma UpdateDown(c: Controller, parse: Parser, show: Formatter, a: Axis, v: int)
    requires TryGetActiveInput(c) == O.Some(a)
    requires parse(Edit(c, a).text) == O.Some(v)
    ensures Edit(Update(c, Keyboard(true, false, true), parse, show), a).text == show(v - 10)
  {
  }

  /** Up and Down in the same frame both apply, in that order, so with a
      faithful text round trip the number ends where it started. */
  lemma UpdateUpAndDown(c: Controller, parse: Parser, show: Formatter, a: Axis, v: int)
    requires RoundTrips(parse, show)
    requires TryGetActiveInput(c) == O.Some(a)
    requires parse(Edit(c, a).text) == O.Some(v)
    ensures Edit(Update(c, Keyboard(true, true, true), parse, show), a).text == show(v)
  {
  }

  /** A box whose text does not parse is never changed by a frame, and
      nothing is re-applied. */
  lemma UpdateUnparsable(c: Controller, kb: Keyboard, parse: Parser, show: Formatter, a: Axis)
    requires TryGetActiveInput(c) == O.Some(a)
    requires parse(Edit(c, a).text).None?
    ensures Update(c, kb, parse, show) == c
  {
  }
}
